=== FILE: README.md ===
# vis register store, modelled in Dafny

This project models the register store of the vis editor (`vis-registers.c`).
A register has a kind (normal, number, clipboard, black hole), a slot array
of byte buffers, and an append flag. The array has one slot per selection of
a multi-selection command. Editing commands resolve a one-character name to a
register identifier. Upper-case names alias the lower-case register and turn
on append mode. Commands then read a slot, write bytes, or capture a document
range into it.

Every operation is a pure function that takes the register (or the whole
register table) and returns the result together with the register as it is
afterwards. The outside world enters through parameters:

- the clipboard helper's run (`Clip`: exit status, output, error output);
- the bytes of a document range (`Range`: the reported size and the document text from the range start);
- the selection count of the current view (`Option<nat>`, None without a window);
- the allocator (`Heap`: whether a full slot array can grow and by how much, and whether a byte buffer can grow).

Files:

- `base.dfy`: bytes, `size_t`, the optional value standing for a NULL pointer, and allocation outcomes.
- `buffers.dfy`: the byte-buffer facts the register code relies on. These are terminator handling and the `%zu` decimal formatting, which comes with a parse-back round trip.
- `arrays.dfy`: the slot-array contracts the register code relies on.
- `registers.dfy`: the register operations.
- `register_names.dfy`: identifiers, the name table and name resolution.
- `selection.dfy`: the register table, selection, and lookup by identifier.
- `register_properties.dfy`, `selection_properties.dfy`: lemmas relating operations to each other.

The source files `array.c`, `buffer.c`, `text.c`, `view.c`, `vis.c` and `vis.h` are not part of this model. Where the register code depends on them, the model states the contract it assumes:

- `array_get` is NULL at or beyond the length.
- `array_resize(n)` succeeds iff `n` is at most the capacity. Entries it exposes keep their previous content.
- `array_truncate(n)` succeeds iff `n` is at most the length.
- `array_add` appends after the addressable entries. Only a full array must grow, and only that growth can fail. Newly allocated entries are empty buffers.
- `buffer_length0` and `buffer_content0` drop one trailing NUL.
- `buffer_terminate` adds a NUL unless one is already there, so an empty buffer gets one too. The empty-buffer case is an assumption about code outside this model. No read can observe it, because the content view drops that NUL again.
- `buffer_content0` terminates a non-empty buffer in place and leaves an empty buffer as it is.
- `buffer_printf` leaves the formatted text followed by a NUL.
- `text_bytes_get` copies at most the requested number of bytes.
- The identifier values follow the order of the name table, then `a`..`z`, the invalid sentinel (equal to the number of registers with storage), `A`..`Z` and the last-recorded-macro identifier.

Behaviour that follows from the code under the array contracts assumed above, proved in the model:

- When `register_buffer` creates a slot, the array afterwards addresses its whole capacity. The count then jumps to the capacity until the register is resized.
- Slots created on the way to a new slot carry whatever the array had retained there (`RegisterProperties.RegisterBufferGap`). They are not always empty.
- `register_buffer` returns NULL for a slot beyond the capacity unless the array is full and its one growth step reaches that slot. So a write can fail even though no allocation failed.
- A failed write to a missing slot can still lengthen the register: unless nothing changed, the array then addresses its whole capacity, exposing retained slots.
- `register_resize` only shortens. A count larger than the current slot count is refused.
- A put on the number register always fails, and its reads are computed from the slot number.
- `register_put_range` on a black-hole or clipboard register with no slot at all reports failure. This is because the final resize to one slot is refused.

## Model

| member | source | states |
|---|---|---|
| Registers.RegisterInit | vis-registers.c:29-34 | Initialisation succeeds exactly when the empty array can grow, and then the register has exactly one slot, which is empty |
| Registers.Fill | vis-registers.c:16-20 | The fill loop makes the array address its whole capacity, keeps the existing entries, and makes every added entry empty |
| Registers.RegisterBuffer | vis-registers.c:6-22 | An existing slot comes back with the register untouched. Otherwise a buffer is returned exactly when the slot is reachable (below the capacity, or reachable by one growth). The new slot and every slot above it are empty, and existing slots are unchanged. A NULL result leaves the register either unchanged or addressing its whole capacity |
| RegisterProperties.RegisterBufferGap | vis-registers.c:10-21 | Slots created on the way to the requested one keep retained content when within the capacity, and are empty when the array had to grow |
| Registers.SlotGet | vis-registers.c:45-94 | Per kind. Normal: NULL iff the slot is missing; otherwise the content without its terminator, and the slot is left terminated. Number: slot 0 holds the canonical decimal text of slot+1 (mod 2^64): non-empty, with no leading zero. Clipboard: the helper's output, with a warning iff its status is nonzero. Black hole: NULL, nothing changes |
| Registers.GetFirst | vis-registers.c:96-98 | Reading slot 0: a normal register gives its first slot's content iff it has a slot; the black hole gives NULL with length 0 |
| Registers.SlotPut | vis-registers.c:100-105 | Succeeds iff the register is normal, the slot is reachable and the buffer can grow. The slot then holds exactly the bytes, and other existing slots are unchanged. When the write creates the slot, the count becomes the capacity and every slot above it is empty. A failed write to an existing slot or to a non-normal register changes nothing |
| Registers.Put | vis-registers.c:107-110 | Succeeds iff a normal register can hold the bytes in slot 0. It then has exactly one slot holding the bytes |
| Registers.Put0 | vis-registers.c:112-114 | Stores the C string with its terminator. It leaves one terminated slot whose content is the input up to its first NUL |
| Registers.SlotAppendRange | vis-registers.c:116-134 | On a normal register the slot becomes old content less one trailing NUL, then the copied range bytes, then one NUL. A size of SIZE_MAX and every other kind fail, and leave existing slots unchanged. When the append creates the slot, the count becomes the capacity and every slot above it is empty |
| Registers.SlotPutRange | vis-registers.c:136-171 | The append flag is checked before any kind dispatch. Without it: normal replaces the slot with the range bytes plus one NUL (SIZE_MAX fails), and creating the slot makes the count the capacity with every slot above it empty; clipboard succeeds iff the helper's status is 0 and warns otherwise; black hole succeeds unchanged; number fails |
| Registers.PutRange | vis-registers.c:173-176 | The slot-0 capture followed by the collapse to one slot, with the exact success condition and resulting single slot for each kind and append mode. A failed capture leaves the register unchanged when slot 0 exists or the kind is not normal, and a clipboard copy carries the helper's warning. No other capture warns |
| Registers.Count | vis-registers.c:178-182 | For every kind but the number register, exactly the slots below the count are addressable. The number register's count is the view's selection count, or 0 without a window. Partners: `RegisterProperties.ResizeThenCount` and `RegisterProperties.PutCollapses` |
| Registers.Resize | vis-registers.c:184-186 | Resize succeeds iff the count is at most the slot count; then the first count slots remain, and on failure nothing changes |
| RegisterProperties.ResizeThenCount | vis-registers.c:178-186 | Except for the number register, resize succeeds exactly up to the count, after which the count is the requested one and the kept slots are unchanged. The number register's count is the selection count (0 without a window), whatever its slots |
| RegisterProperties.InitThenGet | vis-registers.c:29-34 | A freshly initialised normal register has count 1, and its slot 0 reads back empty |
| RegisterProperties.PutGetRoundTrip | vis-registers.c:100-105 | After a successful write, reading the same slot gives the written bytes (less one trailing terminator) |
| RegisterProperties.Put0GetRoundTrip | vis-registers.c:112-114 | A C string stored with its terminator reads back as the string, and the register has one slot |
| RegisterProperties.PutCollapses | vis-registers.c:107-110 | After a successful single-slot write or capture, the count is 1 |
| RegisterProperties.PutRangeGetRoundTrip | vis-registers.c:140-151 | Capturing a range into a normal register without append, then reading the slot, gives exactly the copied range bytes |
| RegisterProperties.AppendTwice | vis-registers.c:116-134 | Two appends to a normal slot read back as the earlier content followed by both ranges' bytes |
| RegisterProperties.GetThenAppend | vis-registers.c:126-129 | The terminator a read adds is dropped again by an append, so a prior read does not change what an append produces |
| RegisterProperties.GetIdempotent | vis-registers.c:49-58 | Reading a normal register twice gives the same content and the same register as reading it once |
| RegisterProperties.NumberGetIsSlotNumber | vis-registers.c:59-68 | For a slot below SIZE_MAX, the number register reads as the decimal text of slot+1, which is never empty |
| RegisterProperties.NumberGetWraps | vis-registers.c:64 | At slot SIZE_MAX, slot+1 wraps to 0 in `size_t`, and the number register reads "0" |
| Buffers.DecimalRoundTrip | vis-registers.c:64 | The `%zu` text of n is a non-empty run of digits with no leading zero that parses back to n |
| RegisterProperties.BlackholeDiscards | vis-registers.c:166-167 | A black-hole capture succeeds without changing anything, later reads give NULL, and direct writes fail |
| RegisterProperties.ClipboardFailure | vis-registers.c:152-165 | A failing copy reports failure and shows the helper's diagnostic. A later paste still returns the helper's output, with a warning iff that run fails |
| RegisterNames.Scan | vis-registers.c:198-202 | The table scan returns the first matching index, or the invalid sentinel exactly when no entry matches |
| RegisterNames.FromName | vis-registers.c:188-203 | `+` and `*` give the clipboard and `@` the last recorded macro. Letters map by offset into the lower- and upper-case ranges. Table names give their own index, and the result is the sentinel iff the character is none of these |
| RegisterNames.NameRoundTrip | vis-registers.c:248-268 | Naming and resolution are inverse in both directions: every named identifier resolves from its name, and every accepted character resolves to the identifier it names (`+` naming `*`) |
| RegisterNames.FromNameInjective | vis-registers.c:248-268 | Distinct accepted names resolve to distinct identifiers, except the pair `+` and `*` |
| Selection.Select | vis-registers.c:205-213 | An identifier with storage selects its storage register, with append on exactly for upper-case identifiers, and no other register changes. Any other identifier changes nothing |
| Selection.Used | vis-registers.c:215-219 | The register in use is the selected one, or the default register when none is selected |
| Selection.StorageOf | vis-registers.c:221-227 | Upper-case identifiers map onto the matching lower-case register and lower identifiers onto themselves. Every other identifier has no register |
| Selection.VisPut | vis-registers.c:229-234 | An identifier without a register fails with nothing changed. Otherwise the write succeeds exactly as `register_put` does on that register, and keeps that register's kind and append flag. A non-normal register, or a failed write to an existing slot 0, leaves the whole table unchanged, and no other register ever changes |
| Selection.VisSlotGet | vis-registers.c:240-246 | An identifier without a register gives NULL with length 0 and changes nothing. Otherwise the result is that register's read, and no other register changes |
| Selection.VisGet | vis-registers.c:236-238 | Reading slot 0 by identifier: NULL for no register; for a normal register, slot 0's content iff it has a slot |
| SelectionProperties.CaseAliasing | vis-registers.c:194-197 | An upper-case name and its lower-case name resolve to different identifiers that share one register |
| SelectionProperties.SelectThenUsed | vis-registers.c:205-219 | After selecting an identifier with storage, the register in use is its storage register, in append mode iff the identifier is upper-case. Selecting anything else leaves the register in use as it was |
| SelectionProperties.DefaultUsed | vis-registers.c:215-217 | With nothing selected, the register in use is the unnamed register `"` |
| SelectionProperties.InvalidNameIsNoop | vis-registers.c:221-246 | A name that resolves to the sentinel selects nothing, stores nothing, and reads as NULL of length 0 |
| SelectionProperties.UpperCaseAppends | vis-registers.c:205-213 | Selecting by upper-case name and capturing a range, then reading the lower-case name, gives the old content followed by the range bytes |
| SelectionProperties.AliasPutGet | vis-registers.c:221-238 | A value stored through an upper-case identifier reads back through the lower-case one |

## Left out

- The clipboard helper process (`vis_pipe` with `--copy` / `--paste`) is replaced by its exit status, output and error output. The bytes streamed to it on a copy are not modelled.
- Only the diagnostic part of the `vis_info_show` warning is modelled. Its fixed "Command failed" prefix and the status line are presentation.
- Clipboard reads and writes dereference the current window unconditionally. Running them without a window is not modelled.
- `register_release` and all freeing of memory are left out. The model has no memory to free.
- A byte buffer's allocated size is not modelled. Whether `buffer_put`, `buffer_grow` or `buffer_reserve` can obtain room is a parameter.
- Allocation failures inside reads (`buffer_terminate`, `buffer_printf`, the output-collecting `read_buffer`) are assumed not to happen.
- `array.c`, `buffer.c`, `text.c` and `view.c` are not part of this model. Only the contracts listed above are assumed of them.
- `vis_register_used` computes the selected identifier by pointer subtraction. The model keeps the selection as an index.
- The help strings of the register table are left out. Only the name characters are kept.
- The `len` out-parameter's NULL checks are not modelled. The length is always reported, as `Got.Length`.
- Which table entries are black-hole, clipboard or number registers is decided in `vis.c`, which is not part of this model. Every table operation takes the register's kind as stored.
- Registers.GetFirst: states only the normal and black-hole cases. The number and clipboard cases are those of `Registers.SlotGet` at slot 0, which it calls.
- Selection.VisGet: states only the missing-register and normal cases. The rest is `Selection.VisSlotGet` at slot 0, which it calls.

=== FILE: arrays.dfy ===
/**
 * The growable array of byte buffers underneath every register. array.c
 * is not part of this model; this module states the contracts the register
 * code relies on. An array owns `store`, all the entries it has allocated
 * (its capacity), of which the first `len` are addressable. Entries beyond
 * `len` are kept: shrinking the length does not clear them, and extending
 * it again exposes them with their previous content. Newly allocated
 * entries start as empty buffers.
 */
module Arrays {
  import opened Base
  import opened Buffers

  datatype SlotArray = SlotArray(store: seq<Buffer>, len: nat)
  {
    /** `array_capacity` */
    function Capacity(): nat {
      |store|
    }

    /** The addressable entries, in slot order. */
    function Live(): seq<Buffer>
      requires len <= |store|
    {
      store[..len]
    }
  }

  /** An array never addresses more entries than it has allocated. */
  type Slots = a: SlotArray | a.len <= |a.store| witness SlotArray([], 0)

  /** `array_init_sized`: nothing allocated, nothing addressable. */
  const Fresh: Slots := SlotArray([], 0)

  /** `array_get`: NULL at or beyond the length. */
  function Get(a: Slots, i: nat): (r: Option<Buffer>)
    ensures r.Some? <==> i < |a.Live()|
    ensures r.Some? ==> r.value == a.Live()[i]
  {
    if i < a.len then Some(a.store[i]) else None
  }

  /** Replaces the content of an addressable entry (a write through the pointer `array_get` gave). */
  function Set(a: Slots, i: nat, b: Buffer): (r: Slots)
    requires i < a.len
    ensures r.Capacity() == a.Capacity() && r.len == a.len
    ensures r.Live() == a.Live()[i := b]
  {
    SlotArray(a.store[i := b], a.len)
  }

  /** `array_resize`: any length up to the capacity, exposing retained entries. */
  function Resize(a: Slots, n: nat): (bool, Slots)
  {
    if n <= |a.store| then (true, SlotArray(a.store, n)) else (false, a)
  }

  /** `array_truncate`: shortens only; a longer length is refused. */
  function Truncate(a: Slots, n: nat): (r: (bool, Slots))
    ensures r.0 <==> n <= |a.Live()|
    ensures r.0 ==> r.1.Live() == a.Live()[..n]
    ensures !r.0 ==> r.1 == a
    ensures r.1.store == a.store
  {
    if n <= a.len then (true, SlotArray(a.store, n)) else (false, a)
  }

  /** Writes `b` into the first unaddressed, already allocated entry. */
  function Push(a: Slots, b: Buffer): (r: Slots)
    requires a.len < |a.store|
  {
    SlotArray(a.store[a.len := b], a.len + 1)
  }

  /**
   * `array_add`: appends `b` after the addressable entries. Only a full
   * array must grow, and only that growth can fail; it then gains
   * `1 + heap.spare` fresh empty entries.
   */
  function Add(a: Slots, b: Buffer, heap: Heap): (r: Option<Slots>)
    ensures r.Some? <==> a.len < |a.store| || heap.arrayGrows
    ensures r.Some? ==> r.value.Live() == a.Live() + [b]
    ensures r.Some? && a.len < |a.store| ==> r.value.store == a.store[a.len := b]
    ensures r.Some? && a.len == |a.store| ==> r.value.store == a.store + [b] + seq(heap.spare, _ => Empty)
  {
    if a.len < |a.store| then Some(Push(a, b))
    else if heap.arrayGrows then Some(SlotArray(a.store + [b] + seq(heap.spare, _ => Empty), a.len + 1))
    else None
  }
}

=== FILE: base.dfy ===
/**
 * Shared vocabulary of the register store model: bytes, the C `size_t`
 * range, an optional value standing for a possibly-NULL pointer, and the
 * outcome of the allocations one call performs.
 */
module Base {

  /** One byte of register content. */
  type Byte = bv8

  /** The string terminator. */
  const NUL: Byte := 0

  /** The largest `size_t` value on a 64-bit target. */
  const SIZE_MAX: nat := 0xFFFF_FFFF_FFFF_FFFF

  /** Values of C's `size_t`. */
  type Size = n: nat | n <= SIZE_MAX

  /** A value that may be absent: `None` stands for a NULL pointer. */
  datatype Option<+T> = None | Some(value: T)

  /**
   * What the allocator does during one call. Memory management is not
   * part of the model; these flags only decide which of the source's
   * allocation-failure branches is taken.
   * - `arrayGrows`: a full slot array can be enlarged;
   * - `spare`: how many entries beyond the one requested an enlarged
   *   slot array gains (the growth policy of the array primitive);
   * - `bufferGrows`: a byte buffer can be enlarged to hold new content.
   */
  datatype Heap = Heap(arrayGrows: bool, spare: nat, bufferGrows: bool)
}

=== FILE: buffers.dfy ===
/**
 * The few facts about the byte-buffer primitive that the register store
 * relies on. A buffer is modelled by its content, the bytes `data[0..len]`;
 * its allocated size is not modelled. buffer.c is not part of this model:
 * each function here is the contract the register code assumes of it.
 */
module Buffers {
  import opened Base

  type Buffer = seq<Byte>

  /** A freshly initialised buffer holds nothing. */
  const Empty: Buffer := []

  predicate EndsInNul(b: Buffer) {
    |b| > 0 && b[|b| - 1] == NUL
  }

  /**
   * The view `buffer_length0` / `buffer_content0` give of a buffer:
   * one trailing terminator is not part of the content.
   */
  function Content0(b: Buffer): Buffer {
    if EndsInNul(b) then b[..|b| - 1] else b
  }

  /** `buffer_terminate`: add a terminator unless one is already there. */
  function Terminate(b: Buffer): Buffer {
    if EndsInNul(b) then b else b + [NUL]
  }

  /** A terminated buffer is its content followed by exactly one NUL. */
  lemma TerminateIsContentPlusNul(b: Buffer)
    ensures Terminate(b) == Content0(b) + [NUL]
    ensures Content0(Terminate(b)) == Content0(b)
    ensures EndsInNul(Terminate(b))
  {
  }

  /** Content followed by a terminator reads back as that content. */
  lemma ContentOfTerminated(s: seq<Byte>)
    ensures Content0(s + [NUL]) == s
  {
    assert (s + [NUL])[..|s|] == s;
  }

  /** `strlen`: the bytes of a C string up to (excluding) its first NUL. */
  function CString(s: seq<Byte>): (r: seq<Byte>)
    ensures NUL !in r
    ensures r <= s
    ensures |r| < |s| ==> s[|r|] == NUL
  {
    if s == [] || s[0] == NUL then [] else [s[0]] + CString(s[1..])
  }

  // ----- decimal formatting, as `buffer_printf(buf, "%zu", n)` produces it -----

  predicate IsDigit(b: Byte) {
    48 <= b <= 57
  }

  function Digit(d: nat): (r: Byte)
    requires d < 10
  {
    (48 + d) as Byte
  }

  /** The decimal digits of `n`, most significant first, without padding. */
  function Decimal(n: nat): seq<Byte>
    decreases n
  {
    if n < 10 then [Digit(n)] else Decimal(n / 10) + [Digit(n % 10)]
  }

  /** Reads a run of decimal digits back as a number. */
  function DecimalValue(s: seq<Byte>): nat
    requires forall i :: 0 <= i < |s| ==> IsDigit(s[i])
  {
    if s == [] then 0
    else DecimalValue(s[..|s| - 1]) * 10 + (s[|s| - 1] - 48) as nat
  }

  /**
   * Formatting round trip: the text of `n` is a non-empty run of digits,
   * with no leading zero, that reads back as `n`.
   */
  lemma {:induction false} DecimalRoundTrip(n: nat)
    ensures |Decimal(n)| > 0
    ensures forall i :: 0 <= i < |Decimal(n)| ==> IsDigit(Decimal(n)[i])
    ensures n > 0 ==> Decimal(n)[0] != 48
    ensures DecimalValue(Decimal(n)) == n
    decreases n
  {
    DigitValue(n % 10);
    if n < 10 {
      assert Decimal(n) == [Digit(n)];
      assert [Digit(n)][..0] == [];
    } else {
      var q, d := n / 10, n % 10;
      DecimalRoundTrip(q);
      var s := Decimal(n);
      assert s == Decimal(q) + [Digit(d)];
      assert s[..|s| - 1] == Decimal(q);
      assert DecimalValue(s) == q * 10 + d;
    }
  }

  lemma DigitValue(d: nat)
    requires d < 10
    ensures IsDigit(Digit(d))
    ensures (Digit(d) - 48) as nat == d
    ensures d > 0 ==> Digit(d) != 48
  {
  }
}

=== FILE: register_names.dfy ===
/**
 * Register identifiers and the resolution of a one-character register
 * name to an identifier. vis.h, which declares the identifier enumeration,
 * is not part of this model: the values below follow the order of the
 * register name table, then the 26 lower-case letter registers, then the
 * invalid sentinel (which is also the number of registers with storage),
 * the 26 upper-case aliases and the last-recorded-macro pseudo identifier.
 */
module RegisterNames {
  import opened Base

  const DefaultId: nat := 0
  const ZeroId: nat := 1
  /** The nine sub-expression match registers `1`..`9` are 2..10. */
  const FirstMatchId: nat := 2
  const AmpersandId: nat := 11
  const BlackholeId: nat := 12
  const ClipboardId: nat := 13
  const DotId: nat := 14
  const SearchId: nat := 15
  const CommandId: nat := 16
  const ShellId: nat := 17
  const NumberId: nat := 18
  const LowerA: nat := 19
  const LowerZ: nat := LowerA + 25
  const InvalidId: nat := LowerZ + 1
  /** The registers that have storage are exactly the identifiers below the sentinel. */
  const StorageCount: nat := InvalidId
  const UpperA: nat := InvalidId + 1
  const UpperZ: nat := UpperA + 25
  const LastRecordedMacro: nat := UpperZ + 1

  /** The name of each table register, indexed by its identifier. */
  const Names: seq<char> :=
    ['"', '0', '1', '2', '3', '4', '5', '6', '7', '8', '9', '&', '_', '*', '.', '/', ':', '!', '#']

  predicate IsLower(c: char) {
    'a' <= c <= 'z'
  }

  predicate IsUpper(c: char) {
    'A' <= c <= 'Z'
  }

  /** Identifiers that alias a lower-case register's storage. */
  predicate IsUpperId(id: nat) {
    UpperA <= id <= UpperZ
  }

  /** The characters name resolution accepts. */
  predicate IsName(c: char) {
    c == '+' || c == '@' || IsLower(c) || IsUpper(c) || c in Names
  }

  /** No name appears twice in the table. */
  lemma NamesDistinct()
    ensures forall i, j :: 0 <= i < j < |Names| ==> Names[i] != Names[j]
    ensures forall i :: 0 <= i < |Names| ==> !IsLower(Names[i]) && !IsUpper(Names[i]) && Names[i] != '+' && Names[i] != '@'
  {
  }

  /**
   * The loop over the name table: the first index at or after `i` whose
   * name is `c`, or the sentinel when there is none.
   */
  function Scan(c: char, i: nat): (id: nat)
    requires i <= |Names|
    ensures id == InvalidId || (i <= id < |Names| && Names[id] == c)
    ensures id == InvalidId <==> forall j :: i <= j < |Names| ==> Names[j] != c
    ensures id != InvalidId ==> forall j :: i <= j < id ==> Names[j] != c
    decreases |Names| - i
  {
    if i == |Names| then InvalidId
    else if Names[i] == c then i
    else Scan(c, i + 1)
  }

  /**
   * `vis_register_from`. `+` is the clipboard and `@` the last recorded
   * macro; letters map by offset onto the lower- and upper-case ranges;
   * any other table name maps to its table index (so `*` is the clipboard
   * too); everything else is the invalid sentinel.
   */
  function FromName(c: char): (id: nat)
    ensures id == InvalidId <==> !IsName(c)
    ensures c == '+' || c == '*' ==> id == ClipboardId
    ensures c == '@' ==> id == LastRecordedMacro
    ensures IsLower(c) ==> LowerA <= id <= LowerZ && id - LowerA == c as int - 'a' as int
    ensures IsUpper(c) ==> UpperA <= id <= UpperZ && id - UpperA == c as int - 'A' as int
    ensures c != '+' && c in Names ==> id < |Names| && Names[id] == c
  {
    NamesDistinct();
    if c == '+' then ClipboardId
    else if c == '@' then LastRecordedMacro
    else if IsLower(c) then LowerA + (c as int - 'a' as int)
    else if IsUpper(c) then UpperA + (c as int - 'A' as int)
    else Scan(c, 0)
  }

  /** The character that names an identifier, if any: the inverse of resolution. */
  function NameOf(id: nat): Option<char> {
    if id < |Names| then Some(Names[id])
    else if LowerA <= id <= LowerZ then Some(('a' as int + (id - LowerA)) as char)
    else if UpperA <= id <= UpperZ then Some(('A' as int + (id - UpperA)) as char)
    else if id == LastRecordedMacro then Some('@')
    else None
  }

  /**
   * Resolution and naming are inverse: every named identifier resolves from
   * its name, and every accepted character resolves to the identifier it
   * names, `+` being a second name of the clipboard `*`.
   */
  lemma NameRoundTrip(id: nat, c: char)
    ensures NameOf(id).Some? ==> FromName(NameOf(id).value) == id
    ensures NameOf(id).None? <==> id == InvalidId || id > LastRecordedMacro
    ensures IsName(c) ==> NameOf(FromName(c)) == Some(if c == '+' then '*' else c)
  {
    NamesDistinct();
    NamedResolves(id);
    if IsName(c) {
      ResolvedIsNamed(c);
    }
  }

  lemma NamedResolves(id: nat)
    ensures NameOf(id).Some? ==> FromName(NameOf(id).value) == id
  {
    NamesDistinct();
    if id < |Names| {
      var c := Names[id];
      assert !IsLower(c) && !IsUpper(c) && c != '+' && c != '@';
      assert FromName(c) == Scan(c, 0);
      assert Names[Scan(c, 0)] == c;
    } else if LowerA <= id <= LowerZ {
      var c := ('a' as int + (id - LowerA)) as char;
      assert IsLower(c);
    } else if UpperA <= id <= UpperZ {
      var c := ('A' as int + (id - UpperA)) as char;
      assert IsUpper(c);
    }
  }

  lemma ResolvedIsNamed(c: char)
    requires IsName(c)
    ensures NameOf(FromName(c)) == Some(if c == '+' then '*' else c)
  {
    NamesDistinct();
    if c == '+' || c == '@' || IsLower(c) || IsUpper(c) {
    } else {
      var id := FromName(c);
      assert id < |Names| && Names[id] == c;
    }
  }

  /** Distinct accepted names resolve to distinct identifiers, save `+` and `*`. */
  lemma FromNameInjective(c: char, d: char)
    requires IsName(c) && IsName(d) && c != d
    requires {c, d} != {'+', '*'}
    ensures FromName(c) != FromName(d)
  {
    NameRoundTrip(0, c);
    NameRoundTrip(0, d);
  }
}

=== FILE: register_properties.dfy ===
/**
 * Properties that relate several register operations: what a read gives
 * back after a write, what two appends accumulate, how resizing and
 * counting agree, and what each kind promises about its content.
 */
module RegisterProperties {
  import opened Base
  import opened Buffers
  import opened Registers

  /** A freshly initialised normal register reads back as one empty slot. */
  lemma InitThenGet(reg: Register, heap: Heap, clip: Clip, selections: Option<nat>)
    requires reg.kind == Normal
    requires RegisterInit(reg, heap).ok
    ensures Count(RegisterInit(reg, heap).reg, selections) == 1
    ensures GetFirst(RegisterInit(reg, heap).reg, clip).data == Some([])
  {
    var r := RegisterInit(reg, heap).reg;
    assert r.Live()[0] == Empty;
  }

  /**
   * Slots `register_buffer` had to create on its way to `slot` hold what the
   * array had retained there when `slot` was within the capacity, and are
   * empty when the array had to grow to reach it.
   */
  lemma RegisterBufferGap(reg: Register, slot: Size, heap: Heap, i: nat)
    requires RegisterBuffer(reg, slot, heap).found
    requires |reg.Live()| <= i < slot
    ensures i < |RegisterBuffer(reg, slot, heap).reg.Live()|
    ensures slot <= reg.Capacity() ==> RegisterBuffer(reg, slot, heap).reg.Live()[i] == reg.values.store[i]
    ensures reg.Capacity() < slot ==> RegisterBuffer(reg, slot, heap).reg.Live()[i] == Empty
  {
  }

  /** Writing bytes to a normal slot and reading the slot gives the bytes back, less one trailing terminator. */
  lemma PutGetRoundTrip(reg: Register, slot: Size, data: seq<Byte>, heap: Heap, clip: Clip)
    requires SlotPut(reg, slot, data, heap).ok
    ensures SlotGet(SlotPut(reg, slot, data, heap).reg, slot, clip).data == Some(Content0(data))
    ensures !EndsInNul(data) ==> SlotGet(SlotPut(reg, slot, data, heap).reg, slot, clip).data == Some(data)
  {
  }

  /** A C string stored with `register_put0` reads back as that string, and the register then has one slot. */
  lemma Put0GetRoundTrip(reg: Register, s: seq<Byte>, heap: Heap, clip: Clip, selections: Option<nat>)
    requires Put0(reg, s, heap).ok
    ensures GetFirst(Put0(reg, s, heap).reg, clip).data == Some(CString(s))
    ensures Count(Put0(reg, s, heap).reg, selections) == 1
  {
    ContentOfTerminated(CString(s));
  }

  /** A successful single-slot write leaves exactly one slot to address. */
  lemma PutCollapses(reg: Register, data: seq<Byte>, range: Range, clip: Clip, heap: Heap, selections: Option<nat>)
    ensures Put(reg, data, heap).ok ==> Count(Put(reg, data, heap).reg, selections) == 1
    ensures reg.kind != Number && PutRange(reg, range, clip, heap).ok ==>
      Count(PutRange(reg, range, clip, heap).reg, selections) == 1
  {
  }

  /** Capturing a range into a normal register without append, then reading it, gives exactly the range's bytes. */
  lemma PutRangeGetRoundTrip(reg: Register, slot: Size, range: Range, clip: Clip, heap: Heap)
    requires reg.kind == Normal && !reg.append
    requires SlotPutRange(reg, slot, range, clip, heap).ok
    ensures SlotGet(SlotPutRange(reg, slot, range, clip, heap).reg, slot, clip).data == Some(Copied(range))
  {
    ContentOfTerminated(Copied(range));
  }

  /**
   * Appending two ranges to a normal slot accumulates them: the slot reads
   * back as its earlier content followed by both ranges' bytes.
   */
  lemma AppendTwice(reg: Register, slot: Size, r1: Range, r2: Range, clip: Clip, heap: Heap)
    requires reg.kind == Normal && reg.append
    requires SlotPutRange(reg, slot, r1, clip, heap).ok
    requires SlotPutRange(SlotPutRange(reg, slot, r1, clip, heap).reg, slot, r2, clip, heap).ok
    ensures SlotGet(SlotPutRange(SlotPutRange(reg, slot, r1, clip, heap).reg, slot, r2, clip, heap).reg, slot, clip).data
         == Some(Content0(reg.Prior(slot)) + Copied(r1) + Copied(r2))
  {
    var c1 := Content0(reg.Prior(slot)) + Copied(r1);
    ContentOfTerminated(c1);
    ContentOfTerminated(c1 + Copied(r2));
  }

  /** Reading a normal slot terminates it, and appending then drops that terminator again: a read changes nothing an append can see. */
  lemma GetThenAppend(reg: Register, slot: Size, range: Range, clip: Clip, heap: Heap)
    requires reg.kind == Normal && reg.append
    requires slot < |reg.Live()|
    ensures SlotPutRange(SlotGet(reg, slot, clip).reg, slot, range, clip, heap).ok == SlotPutRange(reg, slot, range, clip, heap).ok
    ensures SlotPutRange(SlotGet(reg, slot, clip).reg, slot, range, clip, heap).ok ==>
      SlotPutRange(SlotGet(reg, slot, clip).reg, slot, range, clip, heap).reg.Live()
      == SlotPutRange(reg, slot, range, clip, heap).reg.Live()
  {
    TerminateIsContentPlusNul(reg.Live()[slot]);
    ContentOfTerminated(Content0(reg.Live()[slot]));
  }

  /** Reading a normal register twice gives the same content and leaves it as the first read did. */
  lemma GetIdempotent(reg: Register, slot: Size, clip: Clip)
    requires reg.kind == Normal
    ensures SlotGet(SlotGet(reg, slot, clip).reg, slot, clip) == SlotGet(reg, slot, clip)
  {
    var g := SlotGet(reg, slot, clip);
    if g.data.Some? {
      ContentOfTerminated(g.data.value);
    }
  }

  /**
   * Resizing and counting agree: for every kind but the number register a
   * resize succeeds exactly up to the current count, after which the count
   * is the requested one and the kept slots are unchanged. The number
   * register's count is the selection count, whatever its slots.
   */
  lemma ResizeThenCount(reg: Register, n: nat, selections: Option<nat>)
    ensures reg.kind != Number ==> (Resize(reg, n).ok <==> n <= Count(reg, selections))
    ensures reg.kind != Number && Resize(reg, n).ok ==>
      Count(Resize(reg, n).reg, selections) == n
      && forall i :: 0 <= i < n ==> Resize(reg, n).reg.Live()[i] == reg.Live()[i]
    ensures reg.kind == Number ==>
      Count(Resize(reg, n).reg, selections) == (if selections.Some? then selections.value else 0)
  {
  }

  /** The number register's slot content is the decimal text of the slot's 1-based number. */
  lemma NumberGetIsSlotNumber(reg: Register, slot: Size, clip: Clip)
    requires reg.kind == Number && |reg.Live()| > 0
    requires slot < SIZE_MAX
    ensures SlotGet(reg, slot, clip).data == Some(Decimal(slot + 1))
    ensures SlotGet(reg, slot, clip).Length() > 0
  {
    var n := slot + 1;
    assert n % (SIZE_MAX + 1) == n by {
      assert 0 <= n < SIZE_MAX + 1;
    }
    DecimalRoundTrip(n);
  }

  /** At the last slot number, slot+1 wraps around in `size_t` and the number register reads "0". */
  lemma NumberGetWraps(reg: Register, clip: Clip)
    requires reg.kind == Number && |reg.Live()| > 0
    ensures SlotGet(reg, SIZE_MAX, clip).data == Some([48])
  {
  }

  /** The black hole keeps nothing: every capture succeeds without change and every read is NULL. */
  lemma BlackholeDiscards(reg: Register, slot: Size, other: Size, range: Range, clip: Clip, heap: Heap)
    requires reg.kind == Blackhole && !reg.append
    ensures SlotPutRange(reg, slot, range, clip, heap) == Done(true, reg, None)
    ensures SlotGet(SlotPutRange(reg, slot, range, clip, heap).reg, other, clip).data.None?
    ensures !SlotPut(reg, slot, range.text, heap).ok
  {
  }

  /**
   * A failing clipboard helper makes a copy fail with its diagnostic shown,
   * and a later read still completes, carrying the helper's output and a
   * warning only if that run fails too.
   */
  lemma ClipboardFailure(reg: Register, slot: Size, range: Range, copy: Clip, paste: Clip, heap: Heap)
    requires reg.kind == Clipboard && !reg.append
    requires copy.status != 0
    requires slot < |reg.Live()|
    ensures !SlotPutRange(reg, slot, range, copy, heap).ok
    ensures SlotPutRange(reg, slot, range, copy, heap).warning == Some(CString(copy.errors))
    ensures SlotGet(SlotPutRange(reg, slot, range, copy, heap).reg, slot, paste).data == Some(Content0(paste.output))
    ensures SlotGet(SlotPutRange(reg, slot, range, copy, heap).reg, slot, paste).warning.Some? <==> paste.status != 0
  {
  }
}

=== FILE: registers.dfy ===
/**
 * One register of the editor: a kind, a slot array of byte buffers (one
 * slot per selection of a multi-selection command) and the append flag.
 * Every operation is a pure function returning the register as it is
 * afterwards; the outside world (the clipboard helper, the text of a range,
 * the selection count, the allocator) enters through parameters.
 */
module Registers {
  import opened Base
  import opened Buffers
  import opened Arrays

  datatype Kind = Normal | Number | Blackhole | Clipboard

  datatype Register = Register(kind: Kind, values: Slots, append: bool)
  {
    /** The slots a caller can address, in order. */
    function Live(): seq<Buffer> {
      values.Live()
    }

    function Capacity(): nat {
      values.Capacity()
    }

    /** The content a slot starts from: its bytes, or nothing if it does not exist yet. */
    function Prior(slot: nat): Buffer {
      if slot < |Live()| then Live()[slot] else Empty
    }
  }

  /**
   * One run of the clipboard helper: its exit status, what it wrote to its
   * output and what it wrote to its error stream.
   */
  datatype Clip = Clip(status: int, output: seq<Byte>, errors: seq<Byte>)

  /**
   * A document range as the register sees it: `size` is what
   * `text_range_size` reports, and `text` the document bytes from the
   * start of the range to the end of the document.
   */
  datatype Range = Range(size: Size, text: seq<Byte>)

  /** The bytes `text_bytes_get` copies: at most `size`, fewer at the end of the document. */
  function Copied(range: Range): (r: seq<Byte>)
    ensures |r| <= range.size
    ensures r <= range.text
  {
    if range.size <= |range.text| then range.text[..range.size] else range.text
  }

  /**
   * The result of a read: the content (None for a NULL result; the
   * reported length is then 0), the register afterwards and the warning
   * shown to the user, if any.
   */
  datatype Got = Got(data: Option<seq<Byte>>, reg: Register, warning: Option<seq<Byte>>)
  {
    /** The length reported through `len`. */
    function Length(): nat {
      if data.Some? then |data.value| else 0
    }
  }

  /** The result of a write: success, the register afterwards and the warning shown, if any. */
  datatype Done = Done(ok: bool, reg: Register, warning: Option<seq<Byte>>)

  /** What `register_buffer` gives: whether a buffer was returned, and the register afterwards. */
  datatype Located = Located(found: bool, reg: Register)

  /** The warning shown when the clipboard helper fails: its error output. */
  function ClipWarning(clip: Clip): Option<seq<Byte>> {
    if clip.status != 0 then Some(CString(clip.errors)) else None
  }

  // ----- slot management -----

  /**
   * `register_init`: a slot array holding exactly one empty slot. Adding to
   * an array with nothing allocated must allocate, so this fails exactly
   * when the array cannot grow.
   */
  function RegisterInit(reg: Register, heap: Heap): (r: Done)
    ensures r.ok <==> heap.arrayGrows
    ensures r.ok ==> r.reg.Live() == [Empty]
    ensures !r.ok ==> r.reg.Live() == []
    ensures r.reg.kind == reg.kind && r.reg.append == reg.append && r.warning == None
  {
    match Add(Fresh, Empty, heap)
    case None => Done(false, reg.(values := Fresh), None)
    case Some(a) => Done(true, reg.(values := a), None)
  }

  /**
   * The loop of `register_buffer` that adds empty buffers until the array
   * addresses its whole capacity.
   */
  function Fill(a: Slots): (r: Slots)
    ensures r.len == |r.store| == |a.store|
    ensures forall i :: 0 <= i < a.len ==> r.store[i] == a.store[i]
    ensures forall i :: a.len <= i < |r.store| ==> r.store[i] == Empty
    decreases |a.store| - a.len
  {
    if a.len < |a.store| then Fill(Push(a, Empty)) else a
  }

  /**
   * Whether `register_buffer` can hand out a buffer for `slot`: any slot
   * below the capacity; the slot right at the capacity when the array can
   * grow; and a slot beyond it only when the array is full, can grow, and
   * the growth reaches that far.
   */
  predicate Reachable(reg: Register, slot: nat, heap: Heap) {
    || slot < reg.Capacity()
    || (heap.arrayGrows && slot == reg.Capacity())
    || (heap.arrayGrows && |reg.Live()| == reg.Capacity() && slot <= reg.Capacity() + heap.spare)
  }

  /**
   * `register_buffer`: the buffer of `slot`, creating it if needed. An
   * existing slot is returned with the register untouched. Otherwise a fresh
   * empty buffer is placed at `slot` and the array then addresses its whole
   * capacity; the existing slots never change.
   */
  function RegisterBuffer(reg: Register, slot: Size, heap: Heap): (r: Located)
    ensures slot < |reg.Live()| ==> r == Located(true, reg)
    ensures r.found <==> Reachable(reg, slot, heap)
    ensures r.found ==> slot < |r.reg.Live()|
    ensures r.found && |reg.Live()| <= slot ==> r.reg.Live()[slot] == Empty && |r.reg.Live()| == r.reg.Capacity()
    ensures r.found && |reg.Live()| <= slot ==> forall i :: slot < i < |r.reg.Live()| ==> r.reg.Live()[i] == Empty
    ensures !r.found ==> r.reg == reg || |r.reg.Live()| == r.reg.Capacity()
    ensures |reg.Live()| <= |r.reg.Live()|
    ensures forall i :: 0 <= i < |reg.Live()| ==> r.reg.Live()[i] == reg.Live()[i]
    ensures r.reg.kind == reg.kind && r.reg.append == reg.append
  {
    var a := reg.values;
    if slot < a.len then Located(true, reg)
    else
      // `array_resize(slot)` leaves the length at `slot` (or unchanged when
      // `slot` exceeds the capacity), so the `array_get(slot)` after it is
      // always NULL and the code goes on to add a buffer.
      var a1 := Arrays.Resize(a, slot).1;
      match Add(a1, Empty, heap)
      case None => Located(false, reg.(values := a1))
      case Some(a2) =>
        var a3 := Fill(a2);
        Located(slot < a3.len, reg.(values := a3))
  }

  /** `register_resize`: keeps the first `count` slots; a larger count is refused. */
  function Resize(reg: Register, count: nat): (r: Done)
    ensures r.ok <==> count <= |reg.Live()|
    ensures r.ok ==> r.reg.Live() == reg.Live()[..count]
    ensures !r.ok ==> r.reg == reg
    ensures r.reg.kind == reg.kind && r.reg.append == reg.append && r.warning == None
  {
    var (ok, a) := Truncate(reg.values, count);
    Done(ok, reg.(values := a), None)
  }

  /**
   * `vis_register_count`: how many slots a command should address. For
   * the number register that is the number of selections of the current
   * view (`selections`, None without a window); otherwise the slot count.
   */
  function Count(reg: Register, selections: Option<nat>): (r: nat)
    ensures reg.kind != Number ==> forall i: nat :: Get(reg.values, i).Some? <==> i < r
    ensures reg.kind == Number ==> r == (if selections.Some? then selections.value else 0)
  {
    if reg.kind == Number then
      (if selections.Some? then selections.value else 0)
    else |reg.Live()|
  }

  // ----- reading -----

  /**
   * `register_slot_get`. A normal register gives the slot's content without
   * its terminator and leaves the slot terminated. The number register
   * formats `slot + 1` into slot 0, whatever slot was asked for. The
   * clipboard register refills the slot from the helper's output and warns
   * when the helper fails. The black hole gives nothing.
   */
  function SlotGet(reg: Register, slot: Size, clip: Clip): (r: Got)
    ensures r.reg.kind == reg.kind && r.reg.append == reg.append
    ensures |r.reg.Live()| == |reg.Live()| && r.reg.Capacity() == reg.Capacity()
    ensures r.data.None? ==> r.reg == reg && r.warning == None
    ensures reg.kind != Clipboard ==> r.warning == None
    ensures reg.kind == Normal ==> (r.data.Some? <==> slot < |reg.Live()|)
    ensures reg.kind == Normal && r.data.Some? ==>
      && r.data.value == Content0(reg.Live()[slot])
      && r.reg.Live() == reg.Live()[slot := r.data.value + [NUL]]
    ensures reg.kind == Number ==> (r.data.Some? <==> |reg.Live()| > 0)
    ensures reg.kind == Number && r.data.Some? ==>
      && (forall i :: 0 <= i < |r.data.value| ==> IsDigit(r.data.value[i]))
      && DecimalValue(r.data.value) == (slot + 1) % (SIZE_MAX + 1)
      && |r.data.value| > 0 && (|r.data.value| > 1 ==> r.data.value[0] != 48)
      && r.reg.Live() == reg.Live()[0 := r.data.value + [NUL]]
    ensures reg.kind == Clipboard ==> (r.data.Some? <==> slot < |reg.Live()|)
    ensures reg.kind == Clipboard && r.data.Some? ==>
      && r.data.value == Content0(clip.output)
      && r.reg.Live() == reg.Live()[slot := if clip.output == [] then [] else r.data.value + [NUL]]
      && r.warning == ClipWarning(clip)
    ensures reg.kind == Blackhole ==> r == Got(None, reg, None)
  {
    match reg.kind
    case Normal =>
      (match Get(reg.values, slot)
       case None => Got(None, reg, None)
       case Some(b) =>
         TerminateIsContentPlusNul(b);
         Got(Some(Content0(b)), reg.(values := Set(reg.values, slot, Terminate(b))), None))
    case Number =>
      (match Get(reg.values, 0)
       case None => Got(None, reg, None)
       case Some(_) =>
         var text := Decimal((slot + 1) % (SIZE_MAX + 1));
         DecimalRoundTrip((slot + 1) % (SIZE_MAX + 1));
         Got(Some(text), reg.(values := Set(reg.values, 0, text + [NUL])), None))
    case Clipboard =>
      (match Get(reg.values, slot)
       case None => Got(None, reg, None)
       case Some(_) =>
         // the slot is cleared and the helper's output appended to it;
         // `buffer_content0` then terminates it unless it stayed empty
         var b := clip.output;
         TerminateIsContentPlusNul(b);
         var kept := if b == [] then b else Terminate(b);
         Got(Some(Content0(b)), reg.(values := Set(reg.values, slot, kept)), ClipWarning(clip)))
    case Blackhole =>
      Got(None, reg, None)
  }

  /** `register_get`: slot 0. */
  function GetFirst(reg: Register, clip: Clip): (r: Got)
    ensures reg.kind == Normal ==> (r.data.Some? <==> |reg.Live()| > 0)
    ensures reg.kind == Normal && r.data.Some? ==> r.data.value == Content0(reg.Live()[0])
    ensures reg.kind == Blackhole ==> r.data.None? && r.Length() == 0
  {
    SlotGet(reg, 0, clip)
  }

  // ----- writing -----

  /**
   * `register_slot_put`: only a normal register accepts bytes; the slot then
   * holds exactly `data`. Other slots are untouched, and a failed write to an
   * existing slot changes nothing.
   */
  function SlotPut(reg: Register, slot: Size, data: seq<Byte>, heap: Heap): (r: Done)
    ensures r.reg.kind == reg.kind && r.reg.append == reg.append && r.warning == None
    ensures reg.kind != Normal ==> !r.ok && r.reg == reg
    ensures r.ok <==> reg.kind == Normal && Reachable(reg, slot, heap) && heap.bufferGrows
    ensures r.ok ==> slot < |r.reg.Live()| && r.reg.Live()[slot] == data
    ensures r.ok && |reg.Live()| <= slot ==>
      |r.reg.Live()| == r.reg.Capacity() && forall i :: slot < i < |r.reg.Live()| ==> r.reg.Live()[i] == Empty
    ensures |reg.Live()| <= |r.reg.Live()|
    ensures forall i :: 0 <= i < |reg.Live()| && i != slot ==> r.reg.Live()[i] == reg.Live()[i]
    ensures !r.ok && slot < |reg.Live()| ==> r.reg == reg
  {
    if reg.kind != Normal then Done(false, reg, None)
    else
      var loc := RegisterBuffer(reg, slot, heap);
      if !loc.found || !heap.bufferGrows then Done(false, loc.reg, None)
      else Done(true, loc.reg.(values := Set(loc.reg.values, slot, data)), None)
  }

  /**
   * `register_put`: writes slot 0 and collapses the register to that one
   * slot. It succeeds exactly when a normal register can hold the bytes.
   */
  function Put(reg: Register, data: seq<Byte>, heap: Heap): (r: Done)
    ensures r.reg.kind == reg.kind && r.reg.append == reg.append && r.warning == None
    ensures r.ok <==> reg.kind == Normal && heap.bufferGrows && (reg.Capacity() > 0 || heap.arrayGrows)
    ensures r.ok ==> r.reg.Live() == [data]
    ensures !r.ok && |reg.Live()| > 0 ==> r.reg == reg
    ensures reg.kind != Normal ==> r.reg == reg
  {
    var d := SlotPut(reg, 0, data, heap);
    if !d.ok then d else Resize(d.reg, 1)
  }

  /** `register_put0`: stores a C string together with its terminator. */
  function Put0(reg: Register, s: seq<Byte>, heap: Heap): (r: Done)
    ensures r.ok <==> reg.kind == Normal && heap.bufferGrows && (reg.Capacity() > 0 || heap.arrayGrows)
    ensures r.ok ==> |r.reg.Live()| == 1 && EndsInNul(r.reg.Live()[0])
    ensures r.ok ==>
      var text := Content0(r.reg.Live()[0]);
      NUL !in text && text <= s && (|text| < |s| ==> s[|text|] == NUL)
  {
    ContentOfTerminated(CString(s));
    Put(reg, CString(s) + [NUL], heap)
  }

  /**
   * `register_slot_append_range`: on a normal register the slot becomes its
   * old content without one trailing terminator, then the range's bytes,
   * then a single terminator. A range whose size is `SIZE_MAX` is refused
   * before any byte is written. Every other kind refuses to append.
   */
  function SlotAppendRange(reg: Register, slot: Size, range: Range, heap: Heap): (r: Done)
    ensures r.reg.kind == reg.kind && r.reg.append == reg.append && r.warning == None
    ensures reg.kind != Normal ==> !r.ok && r.reg == reg
    ensures r.ok <==> reg.kind == Normal && Reachable(reg, slot, heap) && range.size != SIZE_MAX && heap.bufferGrows
    ensures r.ok ==> slot < |r.reg.Live()| && r.reg.Live()[slot] == Content0(reg.Prior(slot)) + Copied(range) + [NUL]
    ensures r.ok && |reg.Live()| <= slot ==>
      |r.reg.Live()| == r.reg.Capacity() && forall i :: slot < i < |r.reg.Live()| ==> r.reg.Live()[i] == Empty
    ensures |reg.Live()| <= |r.reg.Live()|
    ensures forall i :: 0 <= i < |reg.Live()| && i != slot ==> r.reg.Live()[i] == reg.Live()[i]
    ensures !r.ok && slot < |reg.Live()| ==> r.reg == reg
  {
    match reg.kind
    case Normal =>
      var loc := RegisterBuffer(reg, slot, heap);
      if !loc.found then Done(false, loc.reg, None)
      else if range.size == SIZE_MAX || !heap.bufferGrows then Done(false, loc.reg, None)
      else
        var before := loc.reg.values.store[slot];
        Done(true, loc.reg.(values := Set(loc.reg.values, slot, Content0(before) + Copied(range) + [NUL])), None)
    case _ => Done(false, reg, None)
  }

  /**
   * `register_slot_put_range`. With the append flag set the append rules
   * apply, whatever the kind. Otherwise a normal register's slot becomes
   * the range's bytes and one terminator; the clipboard register hands the
   * range to the helper and succeeds exactly when the helper does; the
   * black hole accepts and keeps nothing; the number register refuses.
   */
  function SlotPutRange(reg: Register, slot: Size, range: Range, clip: Clip, heap: Heap): (r: Done)
    ensures r.reg.kind == reg.kind && r.reg.append == reg.append
    ensures reg.append ==> r == SlotAppendRange(reg, slot, range, heap)
    ensures !reg.append && reg.kind == Normal ==>
      && r.warning == None
      && (r.ok <==> Reachable(reg, slot, heap) && range.size != SIZE_MAX && heap.bufferGrows)
      && (r.ok ==> slot < |r.reg.Live()| && r.reg.Live()[slot] == Copied(range) + [NUL])
      && (r.ok && |reg.Live()| <= slot ==>
            |r.reg.Live()| == r.reg.Capacity() && forall i :: slot < i < |r.reg.Live()| ==> r.reg.Live()[i] == Empty)
      && |reg.Live()| <= |r.reg.Live()|
      && (forall i :: 0 <= i < |reg.Live()| && i != slot ==> r.reg.Live()[i] == reg.Live()[i])
      && (!r.ok && slot < |reg.Live()| ==> r.reg == reg)
    ensures !reg.append && reg.kind == Clipboard ==>
      r.reg == reg && (r.ok <==> clip.status == 0) && r.warning == ClipWarning(clip)
    ensures !reg.append && reg.kind == Blackhole ==> r == Done(true, reg, None)
    ensures !reg.append && reg.kind == Number ==> r == Done(false, reg, None)
  {
    if reg.append then SlotAppendRange(reg, slot, range, heap)
    else
      match reg.kind
      case Normal =>
        var loc := RegisterBuffer(reg, slot, heap);
        if !loc.found then Done(false, loc.reg, None)
        else if range.size == SIZE_MAX || !heap.bufferGrows then Done(false, loc.reg, None)
        else Done(true, loc.reg.(values := Set(loc.reg.values, slot, Copied(range) + [NUL])), None)
      case Clipboard =>
        Done(clip.status == 0, reg, ClipWarning(clip))
      case Blackhole =>
        Done(true, reg, None)
      case Number =>
        Done(false, reg, None)
  }

  /**
   * `register_put_range`: slot 0, then collapse to one slot. The collapse
   * needs a slot to keep, so even the black hole fails on a register with
   * no slot at all.
   */
  function PutRange(reg: Register, range: Range, clip: Clip, heap: Heap): (r: Done)
    ensures r.reg.kind == reg.kind && r.reg.append == reg.append
    ensures !r.ok && |reg.Live()| > 0 ==> r.reg == reg
    ensures reg.kind != Normal && !r.ok ==> r.reg == reg
    ensures reg.kind == Clipboard && !reg.append ==> r.warning == ClipWarning(clip)
    ensures reg.kind != Clipboard || reg.append ==> r.warning == None
    ensures reg.kind == Normal ==>
      && (r.ok <==> range.size != SIZE_MAX && heap.bufferGrows && (reg.Capacity() > 0 || heap.arrayGrows))
      && (r.ok && reg.append ==> r.reg.Live() == [Content0(reg.Prior(0)) + Copied(range) + [NUL]])
      && (r.ok && !reg.append ==> r.reg.Live() == [Copied(range) + [NUL]])
    ensures reg.kind != Normal && reg.append ==> !r.ok && r.reg == reg
    ensures reg.kind == Number ==> !r.ok && r.reg == reg
    ensures reg.kind == Blackhole && !reg.append ==>
      (r.ok <==> |reg.Live()| > 0) && (r.ok ==> r.reg.Live() == reg.Live()[..1])
    ensures reg.kind == Clipboard && !reg.append ==>
      (r.ok <==> clip.status == 0 && |reg.Live()| > 0) && (r.ok ==> r.reg.Live() == reg.Live()[..1])
  {
    var d := SlotPutRange(reg, 0, range, clip, heap);
    if !d.ok then d else Resize(d.reg, 1)
  }
}

=== FILE: selection.dfy ===
/**
 * The editor's register table and the register selected for the next
 * command. The selection is an index into the table rather than a pointer.
 */
module Selection {
  import opened Base
  import opened Buffers
  import opened Arrays
  import opened Registers
  import opened RegisterNames

  datatype VisState = VisState(registers: seq<Register>, selected: Option<nat>)
  {
    predicate Valid() {
      && |registers| == StorageCount
      && (selected.Some? ==> selected.value < StorageCount)
    }
  }

  /** The table holds one register per storage identifier; a selection points into it. */
  type Vis = v: VisState | v.Valid()
    witness VisState(seq(StorageCount, _ => Register(Normal, Fresh, false)), None)

  /** A table-level write: success and the table afterwards. */
  datatype VisDone = VisDone(ok: bool, vis: Vis)

  /** A table-level read: the content (None for NULL, length 0), the table afterwards and any warning. */
  datatype VisGot = VisGot(data: Option<seq<Byte>>, vis: Vis, warning: Option<seq<Byte>>)

  /**
   * `register_from`: the register that stores an identifier. Upper-case
   * identifiers alias their lower-case register; identifiers without
   * storage (the sentinel, the macro pseudo identifier) have none.
   */
  function StorageOf(id: nat): (r: Option<nat>)
    ensures r.Some? <==> id < StorageCount || IsUpperId(id)
    ensures r.Some? ==> r.value < StorageCount
    ensures IsUpperId(id) ==> LowerA <= r.value <= LowerZ && r.value - LowerA == id - UpperA
    ensures id < StorageCount ==> r == Some(id)
  {
    var target := if IsUpperId(id) then LowerA + (id - UpperA) else id;
    if target < StorageCount then Some(target) else None
  }

  /**
   * `vis_register`: selects the register for the next command. An
   * upper-case identifier selects its lower-case register in append mode;
   * any other identifier with storage selects its register with append
   * mode off; anything else leaves the editor as it was. Only the selected
   * register's append flag changes.
   */
  function Select(v: Vis, id: nat): (r: Vis)
    ensures StorageOf(id).None? ==> r == v
    ensures StorageOf(id).Some? ==>
      var t := StorageOf(id).value;
      && r.selected == Some(t)
      && r.registers == v.registers[t := v.registers[t].(append := IsUpperId(id))]
  {
    if UpperA <= id <= UpperZ then
      var t := LowerA + (id - UpperA);
      VisState(v.registers[t := v.registers[t].(append := true)], Some(t))
    else if id < StorageCount then
      VisState(v.registers[id := v.registers[id].(append := false)], Some(id))
    else v
  }

  /** `vis_register_used`: the selected register, or the default one when none is. */
  function Used(v: Vis): (id: nat)
    ensures id < StorageCount
    ensures v.selected.None? ==> id == DefaultId
    ensures v.selected.Some? ==> id == v.selected.value
  {
    if v.selected.None? then DefaultId else v.selected.value
  }

  /** `vis_register_put`: `register_put` on the identifier's register; no register, no write. */
  function VisPut(v: Vis, id: nat, data: seq<Byte>, heap: Heap): (r: VisDone)
    ensures StorageOf(id).None? ==> !r.ok && r.vis == v
    ensures r.vis.selected == v.selected
    ensures StorageOf(id).Some? ==>
      var t := StorageOf(id).value;
      && (r.ok <==> v.registers[t].kind == Normal && heap.bufferGrows && (v.registers[t].Capacity() > 0 || heap.arrayGrows))
      && (r.ok ==> r.vis.registers[t].Live() == [data])
      && r.vis.registers[t].kind == v.registers[t].kind
      && r.vis.registers[t].append == v.registers[t].append
      && (v.registers[t].kind != Normal ==> r.vis == v)
      && (!r.ok && |v.registers[t].Live()| > 0 ==> r.vis == v)
      && (forall j :: 0 <= j < StorageCount && j != t ==> r.vis.registers[j] == v.registers[j])
  {
    match StorageOf(id)
    case None => VisDone(false, v)
    case Some(t) =>
      var d := Put(v.registers[t], data, heap);
      VisDone(d.ok, VisState(v.registers[t := d.reg], v.selected))
  }

  /** `vis_register_slot_get`: `register_slot_get` on the identifier's register; no register, NULL of length 0. */
  function VisSlotGet(v: Vis, id: nat, slot: Size, clip: Clip): (r: VisGot)
    ensures StorageOf(id).None? ==> r == VisGot(None, v, None)
    ensures r.vis.selected == v.selected
    ensures StorageOf(id).Some? ==>
      var t := StorageOf(id).value;
      var reg := v.registers[t];
      && (reg.kind == Normal ==> (r.data.Some? <==> slot < |reg.Live()|))
      && (reg.kind == Normal && r.data.Some? ==> r.data.value == Content0(reg.Live()[slot]))
      && (reg.kind == Blackhole ==> r.data.None?)
      && r.data == SlotGet(reg, slot, clip).data
      && r.warning == SlotGet(reg, slot, clip).warning
      && r.vis.registers == v.registers[t := SlotGet(reg, slot, clip).reg]
  {
    match StorageOf(id)
    case None => VisGot(None, v, None)
    case Some(t) =>
      var g := SlotGet(v.registers[t], slot, clip);
      VisGot(g.data, VisState(v.registers[t := g.reg], v.selected), g.warning)
  }

  /** `vis_register_get`: slot 0. */
  function VisGet(v: Vis, id: nat, clip: Clip): (r: VisGot)
    ensures StorageOf(id).None? ==> r.data.None? && r.vis == v
    ensures StorageOf(id).Some? && v.registers[StorageOf(id).value].kind == Normal ==>
      var reg := v.registers[StorageOf(id).value];
      && (r.data.Some? <==> |reg.Live()| > 0)
      && (r.data.Some? ==> r.data.value == Content0(reg.Live()[0]))
  {
    VisSlotGet(v, id, 0, clip)
  }
}

=== FILE: selection_properties.dfy ===
/**
 * Properties of register selection and lookup by identifier: upper-case
 * names share their lower-case register's storage, selection and the
 * "used register" query agree, and names that resolve to nothing touch
 * nothing.
 */
module SelectionProperties {
  import opened Base
  import opened Buffers
  import opened Registers
  import opened RegisterNames
  import opened Selection

  function Lower(c: char): char
    requires IsUpper(c)
  {
    ('a' as int + (c as int - 'A' as int)) as char
  }

  /** `A` and `a` (and so on) resolve to different identifiers that share one register. */
  lemma CaseAliasing(c: char)
    requires IsUpper(c)
    ensures IsLower(Lower(c))
    ensures FromName(c) != FromName(Lower(c))
    ensures StorageOf(FromName(c)).Some?
    ensures StorageOf(FromName(c)) == StorageOf(FromName(Lower(c)))
  {
  }

  /**
   * After selecting an identifier with storage, the register in use is its
   * storage register, in append mode exactly for upper-case identifiers.
   * Selecting anything else keeps the register in use.
   */
  lemma SelectThenUsed(v: Vis, id: nat)
    ensures StorageOf(id).Some? ==>
      && Used(Select(v, id)) == StorageOf(id).value
      && Select(v, id).registers[Used(Select(v, id))].append == IsUpperId(id)
    ensures StorageOf(id).None? ==> Used(Select(v, id)) == Used(v)
  {
  }

  /** With nothing selected, commands use the unnamed register. */
  lemma DefaultUsed(v: Vis)
    requires v.selected.None?
    ensures Used(v) == DefaultId
    ensures NameOf(Used(v)) == Some('"')
  {
  }

  /**
   * A name that resolves to the sentinel selects nothing, stores nothing and
   * reads as NULL of length 0.
   */
  lemma InvalidNameIsNoop(v: Vis, c: char, data: seq<Byte>, slot: Size, clip: Clip, heap: Heap)
    requires !IsName(c)
    ensures Select(v, FromName(c)) == v
    ensures VisPut(v, FromName(c), data, heap) == VisDone(false, v)
    ensures VisSlotGet(v, FromName(c), slot, clip) == VisGot(None, v, None)
  {
  }

  /**
   * Selecting a register by its upper-case name and capturing a range with
   * the selected register appends: reading the lower-case name afterwards
   * gives the old content followed by the range's bytes.
   */
  lemma UpperCaseAppends(v: Vis, c: char, range: Range, clip: Clip, heap: Heap)
    requires IsUpper(c)
    requires v.registers[StorageOf(FromName(Lower(c))).value].kind == Normal
    requires PutRange(Select(v, FromName(c)).registers[Used(Select(v, FromName(c)))], range, clip, heap).ok
    ensures
      var v1 := Select(v, FromName(c));
      var t := Used(v1);
      var d := PutRange(v1.registers[t], range, clip, heap);
      var v2: Vis := VisState(v1.registers[t := d.reg], v1.selected);
      VisGet(v2, FromName(Lower(c)), clip).data
        == Some(Content0(v.registers[t].Prior(0)) + Copied(range))
  {
    CaseAliasing(c);
    ContentOfTerminated(Content0(v.registers[Used(Select(v, FromName(c)))].Prior(0)) + Copied(range));
  }

  /** A value stored through an upper-case name reads back through the lower-case one. */
  lemma AliasPutGet(v: Vis, c: char, data: seq<Byte>, clip: Clip, heap: Heap)
    requires IsUpper(c)
    requires VisPut(v, FromName(c), data, heap).ok
    ensures VisGet(VisPut(v, FromName(c), data, heap).vis, FromName(Lower(c)), clip).data == Some(Content0(data))
  {
    CaseAliasing(c);
  }
}
